=== FILE: README.md ===
# User accounts, email verification and category paths — a Dafny model

This project models three pieces of sequential logic of an e-commerce back end.

1. **The user service** (`UserServiceImpl`). It covers registration (`save`), `update`, `logicalRemove` and `findById`. It covers login with a verification-email resend window (`loginUser`), email verification (`verifyUser`) and password recovery (`forgotPassword`, `resetPassword`). It also covers the ownership check `userHasPermissionToUser`. Each operation is a pure function from a store to a new store and an `Outcome`. The outcome covers normal results and the thrown exceptions: `UserAlreadyExists`, `UserNotVerified(newEmailSent)`, `EmailNotFound`, `NoContent`, and the email collaborator's failure.
2. **The `User` entity.** This part covers its validation patterns, the column widths they must fit, and username and email uniqueness. It also covers the user's exclusive ownership of its verification tokens and addresses, including cascade deletion.
3. **`Category.getCategoryPath`.** This is the walk from a category up its parent chain, returning names self-first. It is defined by recursion on a depth measure that exists only for an acyclic catalog. The entity's loop is proved to compute the same path.

Files:

- `common.dfy`: `Option`, the ASCII case fold behind the `IgnoreCase` lookups, and a matcher for the anchored patterns `^[C]{lo,hi}$`.
- `user_entity.dfy`: `User`, `VerificationToken`, `Address`, and the field validators.
- `user_store.dfy`: the store. It holds the users in order, the id sequence and the outbox of sent emails. This file also holds the repository lookups, the invariant `WellFormed`, token ownership and cascade deletion.
- `user_service.dfy`: the service operations.
- `user_service_props.dfy`: lemmas about the operations.
- `category_tree.dfy`: the category catalog, the depth measure and the path.

Collaborators become parameters:

- The clock is `now`, in milliseconds.
- Email delivery appends to the store's outbox. `mailUp = false` makes the send fail.
- Token values the JWT service would mint are passed in (`minted`, `resetJwt`). `resetPassword` receives the email the reset JWT decoded to, or `None` when decoding failed.
- Password hashing is an `Encryption` record holding an uninterpreted `hash` and `verify`. Two assumptions appear only as lemma hypotheses:
  - `Sound`: `verify(p, hash(p))` holds.
  - `Distinguishing`: `verify(p, hash(q))` holds only when `p == q`. A salted hash also satisfies this.

Lookups return the first matching stored user. Under `WellFormed` there is at most one match.

Points where the behaviour follows from details of the code:

- **Field patterns.** Usernames are `^[a-z]{2,15}$` (User.java:29). First and last names are `^[a-z]{3,10}$` (User.java:41,45). Category names are `^[A-Za-z]{3,20}$` (Category.java:32).
- **Resend check.** New verification tokens are appended at the end of the user's list (UserServiceImpl.java:90). The resend check reads index 0 (UserServiceImpl.java:105). User.java:52 declares no order for the list. `Login` follows the code; see Findings.
- **Email failure.** `save` sends the email before storing the user, so a failed send stores nothing. `loginUser` stores the new token before sending, and it is not transactional. A failed send there leaves the token stored and surfaces as `EmailFailure`, not `UserNotVerified`.
- **Error names and `remove`.** A missing id is reported as `NoContent`. UserServiceImpl does not implement a physical `remove`. The cascade such a delete would trigger is modelled from the entity's `CascadeType` mappings (`DeleteCascade`).
- **Id comparison.** The ownership check compares boxed `Long` ids with `==`. The model compares values; see Findings.
- **Logical removal.** `findById` and the login lookup do not filter out logically removed users. A removed user is still found and can still log in.

## Model

| member | source | states |
|---|---|---|
| Common.ScanClassRepeat | src/main/java/com/mftplus/ecommerce/model/entity/User.java:29 | a one-pass match of `^[C]{lo,hi}$` accepts exactly the strings of `lo` to `hi` characters all in class C, so an accepted string never exceeds `hi` |
| UserEntity.CheckUsername | src/main/java/com/mftplus/ecommerce/model/entity/User.java:28-29 | a username is valid iff it has 2–15 characters, all in 'a'..'z'; every valid username fits the 15-character column |
| UserEntity.CheckPersonName | src/main/java/com/mftplus/ecommerce/model/entity/User.java:40-46 | a first or last name is valid iff it has 3–10 characters, all in 'a'..'z'; every valid name fits the 10-character column |
| UserEntity.NewUser | src/main/java/com/mftplus/ecommerce/model/entity/User.java:48-53 | a newly constructed user owns no addresses and no tokens, is unverified and not removed |
| UserStore.FindByUsername | src/main/java/com/mftplus/ecommerce/service/impl/UserServiceImpl.java:95 | the lookup finds a user whose username equals the name ignoring case, and finds none exactly when no stored user matches |
| UserStore.FindByEmail | src/main/java/com/mftplus/ecommerce/service/impl/UserServiceImpl.java:139 | the lookup finds a user whose email equals the address ignoring case, and finds none exactly when no stored user matches |
| UserStore.FindByToken | src/main/java/com/mftplus/ecommerce/service/impl/UserServiceImpl.java:122 | the lookup finds a user holding the token value, and finds none exactly when no stored user holds it |
| UserStore.FindById | src/main/java/com/mftplus/ecommerce/service/impl/UserServiceImpl.java:61-63 | the lookup finds a user with the id, and finds none exactly when no stored user has it |
| UserStore.UniqueIdentitiesGiveColumnUniqueness | src/main/java/com/mftplus/ecommerce/model/entity/User.java:28-37 | case-insensitive uniqueness of usernames and emails implies the exact uniqueness the two `unique` columns demand |
| UserStore.TokenOwnership | src/main/java/com/mftplus/ecommerce/model/entity/User.java:52-53 | when each token has one owner, a user's token list holds a value iff the token table's back-reference for that value is that user |
| UserStore.DeleteCascade | src/main/java/com/mftplus/ecommerce/model/entity/User.java:49-53 | deleting a user removes exactly that record, with its addresses and tokens, and keeps every other user in order and unchanged |
| UserStore.DeleteCascadeRemovesOwnedTokens | src/main/java/com/mftplus/ecommerce/model/entity/User.java:52-53 | after the cascade none of the deleted user's tokens can be found and its id no longer resolves |
| UserStore.DeleteCascadePreservesWellFormed | src/main/java/com/mftplus/ecommerce/model/entity/User.java:49-53 | deleting a user keeps ids, identities and token ownership unique |
| UserService.Save | src/main/java/com/mftplus/ecommerce/service/impl/UserServiceImpl.java:39-57 | registration is refused iff a stored user has the email or username ignoring case. On refusal or failed email the store and outbox are unchanged. On success exactly one user is appended, with the next id, the registered username, email, first name, last name and phone number, the hashed password, one token stamped `now`, and exactly one verification email to the registered address |
| UserServiceProps.SaveKeepsStoreWellFormed | src/main/java/com/mftplus/ecommerce/service/impl/UserServiceImpl.java:41-56 | with a fresh token value, registration keeps ids, usernames, emails and token ownership unique |
| UserServiceProps.SavedPasswordVerifies | src/main/java/com/mftplus/ecommerce/service/impl/UserServiceImpl.java:47 | the stored credential is the hash of the registered password, so with a sound hash the registered password verifies |
| UserServiceProps.SaveStoresUnvalidatedFields | src/main/java/com/mftplus/ecommerce/service/impl/UserServiceImpl.java:45-51 | the service code copies the registration fields without checking the entity's patterns, so the model's `save` registers a one-letter upper-case username into an empty store; refusals at insert time are not modelled (see Left out) |
| UserService.Update | src/main/java/com/mftplus/ecommerce/service/impl/UserServiceImpl.java:59-65 | `NoContent` iff no stored user has the id (store unchanged); otherwise exactly that record is replaced |
| UserService.LogicalRemove | src/main/java/com/mftplus/ecommerce/service/impl/UserServiceImpl.java:67-74 | `NoContent` iff no stored user has the id (store unchanged); otherwise exactly that record is flagged deleted |
| UserService.FindUser | src/main/java/com/mftplus/ecommerce/service/impl/UserServiceImpl.java:76-81 | `NoContent` iff no stored user has the id; otherwise a stored user with that id |
| UserServiceProps.LogicalRemoveRetainsRecord | src/main/java/com/mftplus/ecommerce/service/impl/UserServiceImpl.java:67-81 | after logical removal `findById` still returns the record, now flagged deleted, and the store stays well formed |
| UserService.CreateVerificationToken | src/main/java/com/mftplus/ecommerce/service/impl/UserServiceImpl.java:84-92 | the new token, with the minted value and stamped `now`, is added at the end of the user's list, after every existing token; nothing else about the user changes |
| UserService.LoginUnder | src/main/java/com/mftplus/ecommerce/service/impl/UserServiceImpl.java:94-117 | login gives no token iff the username is unknown or the password fails, and then changes nothing. An auth token is issued only to a verified matching user. A resend changes no user count or id, adds one email when sent, and none when the send fails |
| UserService.Login | src/main/java/com/mftplus/ecommerce/service/impl/UserServiceImpl.java:102-105 | as written, an unverified matching user gets `UserNotVerified(false)` exactly when the first-listed token is at most one hour old |
| UserService.LoginNewest | src/main/java/com/mftplus/ecommerce/service/impl/UserServiceImpl.java:102-105 | with the corrected rule, an unverified matching user gets `UserNotVerified(false)` exactly when some token is at most one hour old |
| UserServiceProps.LoginRejectsUnknownUserAndWrongPasswordAlike | src/main/java/com/mftplus/ecommerce/service/impl/UserServiceImpl.java:95-116 | an unknown username and a wrong password both give exactly `(store unchanged, no token)`, so the two are indistinguishable |
| UserServiceProps.LoginVerifiedIssuesAuthToken | src/main/java/com/mftplus/ecommerce/service/impl/UserServiceImpl.java:98-101 | a verified user with the right password gets an auth token for its stored username and nothing changes |
| UserServiceProps.LoginUnverifiedAppliesResendRule | src/main/java/com/mftplus/ecommerce/service/impl/UserServiceImpl.java:102-112 | for an unverified user with the right password: no resend due means `UserNotVerified(false)` with nothing changed. A due resend appends exactly one token stamped `now` and sends exactly one email, giving `UserNotVerified(true)`. A failed send keeps the new token and gives `EmailFailure` |
| UserServiceProps.ResendWindowIsStrict | src/main/java/com/mftplus/ecommerce/service/impl/UserServiceImpl.java:104-105 | the window is 3,600,000 ms and strict: a first token exactly one hour old gives no resend, one a millisecond older does |
| UserServiceProps.LoginTwiceAtSameInstantSendsOnce | src/test/java/com/mftplus/ecommerce/service/UserServiceTest.java:80-98 | two unverified logins with the clock unchanged on a user with no token: the first sends one email and reports true, the second sends nothing, changes nothing and reports false |
| UserServiceProps.LoginAfterWindowSendsAgain | src/main/java/com/mftplus/ecommerce/service/impl/UserServiceImpl.java:104-105 | strictly more than one hour after the first token, another unverified login sends exactly one more email |
| UserServiceProps.LoginKeepsStoreWellFormed | src/main/java/com/mftplus/ecommerce/service/impl/UserServiceImpl.java:103-110 | with a fresh token value, login keeps the store well formed under either resend rule |
| UserService.VerifyUser | src/main/java/com/mftplus/ecommerce/service/impl/UserServiceImpl.java:119-136 | true iff the token is held by its owner and that owner is unverified; the owner alone then becomes verified with no tokens left; false changes nothing |
| UserServiceProps.VerifyUserConsumesOwnersTokens | src/main/java/com/mftplus/ecommerce/service/impl/UserServiceImpl.java:121-133 | for a token held by user i: an unverified i becomes verified and loses every token (true); an already verified i gives false with nothing changed |
| UserServiceProps.VerifyUserRejectsUnknownToken | src/main/java/com/mftplus/ecommerce/service/impl/UserServiceImpl.java:121-135 | a token nobody holds gives false and changes nothing |
| UserServiceProps.VerifyUserReplayFails | src/main/java/com/mftplus/ecommerce/service/impl/UserServiceImpl.java:128-135 | replaying a consumed token gives false and changes nothing |
| UserServiceProps.VerifyUserKeepsStoreWellFormed | src/main/java/com/mftplus/ecommerce/service/impl/UserServiceImpl.java:128-132 | verification keeps the store well formed |
| UserService.ForgotPassword | src/main/java/com/mftplus/ecommerce/service/impl/UserServiceImpl.java:138-149 | `EmailNotFound` iff no user's email matches ignoring case; users are never changed; on success exactly one reset email goes to a matching user's address. `Done` only when the send succeeded: a failed send changes nothing and delivers no email |
| UserServiceProps.ForgotPasswordMailsStoredAddress | src/main/java/com/mftplus/ecommerce/service/impl/UserServiceImpl.java:139-144 | the reset email goes to the matching user's stored address (its stored case), and only the outbox changes |
| UserService.ResetPassword | src/main/java/com/mftplus/ecommerce/service/impl/UserServiceImpl.java:151-162 | an undecodable token changes nothing. No matching email is a no-op. Otherwise the user the email lookup finds gets the hash of the new password, and no user whose email does not match changes |
| UserServiceProps.ResetPasswordReplacesCredential | src/main/java/com/mftplus/ecommerce/service/impl/UserServiceImpl.java:156-160 | the matching user's hash becomes the hash of the new password and every other user is unchanged, with no assumption on the hash. With a sound hash the new password then verifies; with a distinguishing hash a different old password no longer does |
| UserServiceProps.PasswordOperationsKeepStoreWellFormed | src/main/java/com/mftplus/ecommerce/service/impl/UserServiceImpl.java:138-162 | password recovery and reset keep the store well formed |
| UserServiceProps.PermissionMeansOwnRecord | src/main/java/com/mftplus/ecommerce/service/impl/UserServiceImpl.java:164-166 | with ids issued uniquely, a stored user is granted access to an id exactly when `findById` of that id returns that same user |
| UserService.UserHasPermissionAsWritten | src/main/java/com/mftplus/ecommerce/service/impl/UserServiceImpl.java:165 | the `==` of the code on boxed ids: a grant implies the two ids hold equal values |
| UserServiceProps.PermissionAsWrittenNeverGrantsOtherIds | src/main/java/com/mftplus/ecommerce/service/impl/UserServiceImpl.java:165 | boxing the two ids as `Long.valueOf` does, the identity comparison grants access only where the value comparison does |
| UserServiceProps.FirstListedRuleResendsOnEveryLogin | src/main/java/com/mftplus/ecommerce/service/impl/UserServiceImpl.java:104-105 | as written, once the first-listed token is over an hour old, two logins within the same hour, each minting a distinct fresh token value, both send an email, and the store stays well formed |
| UserServiceProps.NewestRuleSendsAtMostOncePerWindow | src/main/java/com/mftplus/ecommerce/service/impl/UserServiceImpl.java:104-105 | deciding on the newest token, a login that sent an email is followed by no further email within the hour |
| UserServiceProps.PermissionAsWrittenRefusesOwnerAboveLongCache | src/main/java/com/mftplus/ecommerce/service/impl/UserServiceImpl.java:165 | as written, an owner whose id exceeds 127 is refused its own account when the ids were boxed separately |
| UserServiceProps.PermissionAsWrittenAgreesInsideLongCache | src/main/java/com/mftplus/ecommerce/service/impl/UserServiceImpl.java:165 | for ids up to 127 the identity comparison and the value comparison agree |
| CategoryTree.CheckCategoryName | src/main/java/com/mftplus/ecommerce/model/entity/Category.java:31-32 | a category name is valid iff it has 3–20 ASCII letters of either case; a valid name fits the 20-character column |
| CategoryTree.AcyclicIffEveryChainEnds | src/main/java/com/mftplus/ecommerce/model/entity/Category.java:54-58 | bounding the walk by the number of categories loses nothing: the catalog is acyclic iff every parent chain from a stored category ends at a root after some finite number of links |
| CategoryTree.ChainFitsCatalog | src/main/java/com/mftplus/ecommerce/model/entity/Category.java:54-58 | a parent chain that ends at a root visits distinct categories, so it has fewer links than there are categories |
| CategoryTree.ParentIsOneStepCloser | src/main/java/com/mftplus/ecommerce/model/entity/Category.java:54-58 | in an acyclic catalog a parent is stored and has one ancestor fewer; depth 0 means no parent |
| CategoryTree.SelfParentIsCyclic | src/main/java/com/mftplus/ecommerce/model/entity/Category.java:54 | a category that is its own parent makes the catalog cyclic, so the unguarded loop would not end |
| CategoryTree.CategoryPath | src/main/java/com/mftplus/ecommerce/model/entity/Category.java:49-61 | the path has one more element than there are ancestors and starts with the category's own name; it is a singleton exactly for a root |
| CategoryTree.AncestorAt | src/main/java/com/mftplus/ecommerce/model/entity/Category.java:54-58 | the category reached after k parent links is stored and k levels shallower |
| CategoryTree.PathFollowsParentLinks | src/main/java/com/mftplus/ecommerce/model/entity/Category.java:54-58 | element k is the name of the category reached after k links, and that category's parent is the one reached after k+1 |
| CategoryTree.PathEndsAtRoot | src/main/java/com/mftplus/ecommerce/model/entity/Category.java:54-58 | the last element is the name of the root ancestor, the first category reached with no parent |
| CategoryTree.GetCategoryPath | src/main/java/com/mftplus/ecommerce/model/entity/Category.java:49-61 | the entity's loop, run on an acyclic catalog, terminates and returns the recursively defined path |
| CategoryTree.LoadChildren | src/main/java/com/mftplus/ecommerce/model/entity/Category.java:39-43 | children collections derived from the parent links make c a child of p iff c's parent is p, and keep every name and parent |
| CategoryTree.ChildPathExtendsParentPath | src/main/java/com/mftplus/ecommerce/model/entity/Category.java:35-43 | a child sits one level below its parent, and its path is its own name followed by the parent's path |

## Findings

| source | as written | input that shows it | evidently intended | confidence | as-written member | corrected member |
|---|---|---|---|---|---|---|
| src/main/java/com/mftplus/ecommerce/service/impl/UserServiceImpl.java:104-105 | the resend check reads the first token of the list. New tokens are appended at the end (line 90), so the first token is the oldest | an unverified user whose first token is two hours old logs in twice within the same hour, with two distinct minted token values: two verification emails are sent | decide on the newest token, so that at most one email is sent per hour | not executed; medium, because the order of the list as loaded from the database is not declared | UserServiceProps.FirstListedRuleResendsOnEveryLogin | UserServiceProps.NewestRuleSendsAtMostOncePerWindow |
| src/main/java/com/mftplus/ecommerce/service/impl/UserServiceImpl.java:165 | `==` on two boxed `Long` ids compares object identity | user with id 200 asks for id 200, each id boxed separately: access refused | compare the id values | not executed; high | UserServiceProps.PermissionAsWrittenRefusesOwnerAboveLongCache | UserServiceProps.PermissionMeansOwnRecord |

The corrected resend rule is `UserService.ShouldResendNewest`, used by `UserService.LoginNewest`. It sends when every stored token is more than one hour old, whatever the list order. `UserService.Login` keeps the code's first-token rule, so that the model of `loginUser` matches the code. The identity comparison is modelled by `UserService.UserHasPermissionAsWritten` over `UserService.LongValueOf`, which reproduces the cache of boxed values from -128 to 127. A box is either the cached object for its value or a separately allocated object holding its value, so equal boxes always hold equal values. The corrected comparison is `UserService.UserHasPermissionToUser`, on id values; no modelled operation calls it, because its callers lie outside this model.

## Left out

- JWT minting and decoding are left out: token values are opaque parameters, and the auth token is represented by the username it carries. Purpose isolation and signature checks belong to the JWT service and its library, which are not part of this model.
- Password hashing is left out. It is an uninterpreted `hash`/`verify` pair, and the assumptions `Sound` and `Distinguishing` appear only as lemma hypotheses.
- Email delivery is reduced to appending to an outbox or failing. SMTP and message rendering are not modelled.
- The Spring Data repositories are replaced by lookups over the stored sequence. Case-insensitive matching is an ASCII case fold, whereas the database's upper-casing also folds non-ASCII letters. When several users match, the model returns the first; the repository would throw instead, but `WellFormed` rules this out.
- `@Transactional`, concurrency and `System.currentTimeMillis` are left out; `now` is a parameter.
- `remove`, `findAll`, `findAllByDeletedFalse`, `findByIdAndDeletedFalse`, `findByUsernameIgnoreCaseAndDeletedFalse` and `findByEmailIgnoreCaseAndDeletedFalse` are declared in the service interface, and UserServiceImpl does not implement them. Only the entity-level cascade of a physical delete is modelled.
- Null ids and null request fields are left out: ids are natural numbers and strings are always present.
- UserService.Update: does not model the database rejecting a record whose username or email duplicates another user's, so no lemma claims that `update` keeps `WellFormed`.
- Bean validation is not enforced by the service code. The field patterns are predicates and validators that no operation checks (`SaveStoresUnvalidatedFields`). The `@Email` format and the undeclared phone-number rules are not modelled.
- UserService.Save: refusals by the persistence layer when `userRepository.save` inserts the row are not modelled. These are bean validation of the `@Pattern` constraints at insert, values wider than their column (such as the 15-character username), and the case-sensitive `unique` columns. In the program such a refusal comes after the verification email has been sent; the model's `Save` stores the user.
- The many-to-many link between categories and products is left out.
- CategoryTree.CategoryPath: defined only for acyclic catalogs, that is, when the chain from every stored category ends. The entity's loop only walks the chain from the category it is called on. So on a catalog with a cycle elsewhere, for example root 1 beside categories 2 and 3 that are each other's parent, the loop on category 1 ends and returns one name, but the model gives no result. On a cyclic chain the loop does not terminate; the model states this only for a category that is its own parent (`SelfParentIsCyclic`).
- CategoryTree.GetCategoryPath: requires the whole catalog to be acyclic, like `CategoryPath`, although the loop only needs the chain from the category it starts at to end. On the catalog in the line above the loop returns one name for category 1, and the model does not cover that call.

=== FILE: category_tree.dfy ===
/** The `Category` entity: a catalog of categories linked to their parents,
    the children collection mapped by those links, the name pattern, and
    `getCategoryPath`, the walk from a category up to its root. */
module CategoryTree {
  import opened Common

  /** Width of the `c_name` column. */
  const NameColumn: nat := 20

  type CategoryId = nat

  /** `children` is the `childCategories` collection, which is mapped by the
      children's `parent` links. */
  datatype Category = Category(name: string, parent: Option<CategoryId>, children: set<CategoryId>)

  type Catalog = map<CategoryId, Category>

  /** `^[A-Za-z]{3,20}$` */
  predicate ValidCategoryName(s: string) {
    MatchesClassRepeat(s, IsAsciiLetter, 3, 20)
  }

  /** Validates a category name; a valid one always fits its column. */
  method CheckCategoryName(s: string) returns (ok: bool)
    ensures ok <==> 3 <= |s| <= 20 && forall i :: 0 <= i < |s| ==> ('a' <= s[i] <= 'z' || 'A' <= s[i] <= 'Z')
    ensures ok <==> ValidCategoryName(s)
    ensures ok ==> |s| <= NameColumn
  {
    ok := ScanClassRepeat(s, IsAsciiLetter, 3, 20);
  }

  /** Number of parent links from `id` up to a category with no parent, when
      that root is reached within `fuel` links through stored categories. */
  function StepsToRoot(cs: Catalog, id: CategoryId, fuel: nat): (r: Option<nat>)
    decreases fuel
  {
    if id !in cs then None
    else match cs[id].parent
      case None => Some(0)
      case Some(p) =>
        if fuel == 0 then None
        else match StepsToRoot(cs, p, fuel - 1)
          case None => None
          case Some(k) => Some(k + 1)
  }

  /** Every parent chain ends at a root: no chain runs into a cycle or a
      missing category. A chain through distinct categories has fewer links
      than there are categories, so `|cs|` links always suffice
      (`AcyclicIffEveryChainEnds`). */
  predicate Acyclic(cs: Catalog) {
    forall id :: id in cs ==> StepsToRoot(cs, id, |cs|).Some?
  }

  /** The number of ancestors of `id`: the depth measure of the walk. */
  function Depth(cs: Catalog, id: CategoryId): (d: nat)
    requires Acyclic(cs) && id in cs
    ensures d < |cs|
  {
    ChainFitsCatalog(cs, id, |cs|);
    StepsToRoot(cs, id, |cs|).value
  }

  /** More fuel never changes a walk that already reached the root. */
  lemma {:induction false} MoreFuelSameSteps(cs: Catalog, id: CategoryId, f: nat, g: nat)
    requires StepsToRoot(cs, id, f).Some? && f <= g
    ensures StepsToRoot(cs, id, g) == StepsToRoot(cs, id, f)
    decreases f
  {
    match cs[id].parent
    case None =>
    case Some(p) =>
      MoreFuelSameSteps(cs, p, f - 1, g - 1);
  }

  /** A walk that reaches the root after `k` links needs no more than `k`
      links of fuel. */
  lemma {:induction false} LeastFuel(cs: Catalog, id: CategoryId, f: nat)
    requires StepsToRoot(cs, id, f).Some?
    ensures StepsToRoot(cs, id, StepsToRoot(cs, id, f).value) == StepsToRoot(cs, id, f)
    decreases f
  {
    match cs[id].parent
    case None =>
    case Some(p) =>
      LeastFuel(cs, p, f - 1);
  }

  /** The categories a walk to the root visits, from `id` itself to the
      root: each is stored, and the one at position `i` is `|chain| - 1 - i`
      links from the root. */
  lemma {:induction false} WalkToRoot(cs: Catalog, id: CategoryId, f: nat) returns (chain: seq<CategoryId>)
    requires StepsToRoot(cs, id, f).Some?
    ensures |chain| == StepsToRoot(cs, id, f).value + 1
    ensures forall i :: 0 <= i < |chain| ==> chain[i] in cs && StepsToRoot(cs, chain[i], f) == Some(|chain| - 1 - i)
    decreases f
  {
    match cs[id].parent
    case None =>
      chain := [id];
    case Some(p) =>
      var rest := WalkToRoot(cs, p, f - 1);
      forall i | 0 <= i < |rest|
        ensures StepsToRoot(cs, rest[i], f) == Some(|rest| - 1 - i)
      {
        MoreFuelSameSteps(cs, rest[i], f - 1, f);
      }
      chain := [id] + rest;
      assert forall i :: 0 < i < |chain| ==> chain[i] == rest[i - 1];
  }

  /** A sequence of distinct elements of a set is no longer than the set. */
  lemma {:induction false} DistinctElementsFit(xs: seq<CategoryId>, ks: set<CategoryId>)
    requires forall i :: 0 <= i < |xs| ==> xs[i] in ks
    requires forall i, j :: 0 <= i < j < |xs| ==> xs[i] != xs[j]
    ensures |xs| <= |ks|
  {
    if |xs| > 0 {
      assert forall i :: 0 <= i < |xs[1..]| ==> xs[1..][i] == xs[i + 1];
      DistinctElementsFit(xs[1..], ks - {xs[0]});
    }
  }

  /** A walk that reaches the root visits distinct stored categories, so it
      takes fewer links than there are categories. */
  lemma {:induction false} ChainFitsCatalog(cs: Catalog, id: CategoryId, f: nat)
    requires StepsToRoot(cs, id, f).Some?
    ensures StepsToRoot(cs, id, f).value < |cs|
  {
    var chain := WalkToRoot(cs, id, f);
    DistinctElementsFit(chain, cs.Keys);
  }

  /** The chain of parent links from `id` reaches a root after some finite
      number of links. */
  ghost predicate ChainEnds(cs: Catalog, id: CategoryId) {
    exists f: nat :: StepsToRoot(cs, id, f).Some?
  }

  /** A catalog is acyclic exactly when every chain of parent links from a
      stored category ends at a root, however long it is. */
  lemma {:induction false} AcyclicIffEveryChainEnds(cs: Catalog)
    ensures Acyclic(cs) <==> forall id :: id in cs ==> ChainEnds(cs, id)
  {
    forall id | id in cs && ChainEnds(cs, id)
      ensures StepsToRoot(cs, id, |cs|).Some?
    {
      var f: nat :| StepsToRoot(cs, id, f).Some?;
      ChainFitsCatalog(cs, id, f);
      LeastFuel(cs, id, f);
      MoreFuelSameSteps(cs, id, StepsToRoot(cs, id, f).value, |cs|);
    }
    forall id | id in cs && StepsToRoot(cs, id, |cs|).Some?
      ensures ChainEnds(cs, id)
    {
      var f: nat := |cs|;
      assert StepsToRoot(cs, id, f).Some?;
    }
  }

  /** A category's parent is stored and has exactly one ancestor fewer; a
      category with no ancestors has no parent. */
  lemma {:induction false} ParentIsOneStepCloser(cs: Catalog, id: CategoryId)
    requires Acyclic(cs) && id in cs
    ensures cs[id].parent.None? <==> Depth(cs, id) == 0
    ensures cs[id].parent.Some? ==>
              cs[id].parent.value in cs && Depth(cs, cs[id].parent.value) + 1 == Depth(cs, id)
  {
    match cs[id].parent
    case None =>
    case Some(p) =>
      assert StepsToRoot(cs, p, |cs| - 1).Some?;
      MoreFuelSameSteps(cs, p, |cs| - 1, |cs|);
  }

  /** A category that is its own parent makes the catalog cyclic: the walk
      from it never ends. */
  lemma {:induction false} SelfParentIsCyclic(cs: Catalog, id: CategoryId)
    requires id in cs && cs[id].parent == Some(id)
    ensures !Acyclic(cs)
  {
    NeverReachesRoot(cs, id, |cs|);
  }

  lemma {:induction false} NeverReachesRoot(cs: Catalog, id: CategoryId, fuel: nat)
    requires id in cs && cs[id].parent == Some(id)
    ensures StepsToRoot(cs, id, fuel).None?
    decreases fuel
  {
    if fuel > 0 {
      NeverReachesRoot(cs, id, fuel - 1);
    }
  }

  /** `getCategoryPath`, defined by recursion on the depth: the category's
      own name followed by the path of its parent. Its length is one more
      than the number of ancestors, it starts with the category's own name,
      and it is a single name exactly for a root. */
  function CategoryPath(cs: Catalog, id: CategoryId): (r: seq<string>)
    requires Acyclic(cs) && id in cs
    ensures |r| == Depth(cs, id) + 1
    ensures r[0] == cs[id].name
    ensures |r| == 1 <==> cs[id].parent.None?
    decreases Depth(cs, id)
  {
    ParentIsOneStepCloser(cs, id);
    match cs[id].parent
    case None => [cs[id].name]
    case Some(p) => [cs[id].name] + CategoryPath(cs, p)
  }

  /** The category reached after `k` parent links from `id`. */
  function AncestorAt(cs: Catalog, id: CategoryId, k: nat): (a: CategoryId)
    requires Acyclic(cs) && id in cs && k <= Depth(cs, id)
    ensures a in cs && Depth(cs, a) == Depth(cs, id) - k
    decreases k
  {
    ParentIsOneStepCloser(cs, id);
    if k == 0 then id else AncestorAt(cs, cs[id].parent.value, k - 1)
  }

  /** Element `k` of the path is the name of the category reached after `k`
      links, and element `k + 1` is the name of that category's parent. */
  lemma {:induction false} PathFollowsParentLinks(cs: Catalog, id: CategoryId)
    requires Acyclic(cs) && id in cs
    ensures forall k :: 0 <= k <= Depth(cs, id) ==>
              CategoryPath(cs, id)[k] == cs[AncestorAt(cs, id, k)].name
    ensures forall k :: 0 <= k < Depth(cs, id) ==>
              cs[AncestorAt(cs, id, k)].parent == Some(AncestorAt(cs, id, k + 1))
    decreases Depth(cs, id)
  {
    ParentIsOneStepCloser(cs, id);
    match cs[id].parent
    case None =>
    case Some(p) =>
      PathFollowsParentLinks(cs, p);
      forall k | 0 < k <= Depth(cs, id)
        ensures AncestorAt(cs, id, k) == AncestorAt(cs, p, k - 1)
      {
      }
  }

  /** The path ends with the name of the root ancestor, the first category
      reached that has no parent. */
  lemma {:induction false} PathEndsAtRoot(cs: Catalog, id: CategoryId)
    requires Acyclic(cs) && id in cs
    ensures var root := AncestorAt(cs, id, Depth(cs, id));
            && cs[root].parent.None?
            && CategoryPath(cs, id)[|CategoryPath(cs, id)| - 1] == cs[root].name
  {
    PathFollowsParentLinks(cs, id);
    ParentIsOneStepCloser(cs, AncestorAt(cs, id, Depth(cs, id)));
  }

  /** `getCategoryPath` as the loop in the entity writes it: start with the
      category's own name and, while the current category has a parent, add
      the parent's name and move up. It computes the recursive path. */
  method GetCategoryPath(cs: Catalog, id: CategoryId) returns (path: seq<string>)
    requires Acyclic(cs) && id in cs
    ensures path == CategoryPath(cs, id)
  {
    path := [cs[id].name];
    var current := id;
    while cs[current].parent.Some?
      invariant current in cs
      invariant path + CategoryPath(cs, current)[1..] == CategoryPath(cs, id)
      decreases Depth(cs, current)
    {
      var p := cs[current].parent.value;
      ParentIsOneStepCloser(cs, current);
      assert CategoryPath(cs, current)[1..] == CategoryPath(cs, p);
      path := path + [cs[p].name];
      current := p;
    }
  }

  /** The children collections agree with the parent links. */
  predicate LinksConsistent(cs: Catalog) {
    forall p, c :: p in cs && c in cs ==> (c in cs[p].children <==> cs[c].parent == Some(p))
  }

  /** Recomputes every `childCategories` collection from the parent links,
      as the `mappedBy` mapping does when the entities are loaded; names and
      parents are kept. */
  function LoadChildren(cs: Catalog): (r: Catalog)
    ensures r.Keys == cs.Keys
    ensures forall id :: id in cs ==> r[id].name == cs[id].name && r[id].parent == cs[id].parent
    ensures LinksConsistent(r)
  {
    map id | id in cs :: cs[id].(children := set c | c in cs && cs[c].parent == Some(id))
  }

  /** A child's path is its own name followed by its parent's path, and the
      child sits one level deeper. */
  lemma {:induction false} ChildPathExtendsParentPath(cs: Catalog, p: CategoryId, c: CategoryId)
    requires Acyclic(cs) && LinksConsistent(cs)
    requires p in cs && c in cs && c in cs[p].children
    ensures Depth(cs, c) == Depth(cs, p) + 1
    ensures CategoryPath(cs, c) == [cs[c].name] + CategoryPath(cs, p)
  {
    ParentIsOneStepCloser(cs, c);
  }
}

=== FILE: common.dfy ===
/** Shared vocabulary: optional values, the ASCII case fold used by the
    repository's `IgnoreCase` lookups, and the anchored character-class
    patterns `^[C]{lo,hi}$` that the entities' validation annotations use. */
module Common {

  datatype Option<+T> = None | Some(value: T)

  /** Lower-cases one ASCII letter; every other character is left alone. */
  function LowerChar(c: char): (r: char)
    ensures !('A' <= r <= 'Z')
    ensures !('A' <= c <= 'Z') ==> r == c
  {
    if 'A' <= c <= 'Z' then (c as int + 32) as char else c
  }

  /** Lower-cases every ASCII letter of `s`, position by position. */
  function Lower(s: string): (r: string)
    ensures |r| == |s|
  {
    seq(|s|, i requires 0 <= i < |s| => LowerChar(s[i]))
  }

  /** Equality ignoring ASCII case, as `findBy...IgnoreCase` compares. */
  predicate EqualsIgnoreCase(a: string, b: string) {
    Lower(a) == Lower(b)
  }

  predicate IsLowerAscii(c: char) {
    'a' <= c <= 'z'
  }

  predicate IsAsciiLetter(c: char) {
    'a' <= c <= 'z' || 'A' <= c <= 'Z'
  }

  /** `s` matches the anchored regular expression `^[C]{lo,hi}$`, where the
      character class C is `inClass`. */
  predicate MatchesClassRepeat(s: string, inClass: char -> bool, lo: nat, hi: nat) {
    lo <= |s| <= hi && forall i :: 0 <= i < |s| ==> inClass(s[i])
  }

  /** Matches `s` against `^[C]{lo,hi}$` the way a regular-expression engine
      does: one pass over the characters, failing at the first character
      outside the class or as soon as more than `hi` characters are taken. */
  method ScanClassRepeat(s: string, inClass: char -> bool, lo: nat, hi: nat) returns (ok: bool)
    ensures ok <==> lo <= |s| <= hi && forall i :: 0 <= i < |s| ==> inClass(s[i])
    ensures ok ==> |s| <= hi
  {
    var k := 0;
    while k < |s|
      invariant 0 <= k <= |s|
      invariant k <= hi
      invariant forall j :: 0 <= j < k ==> inClass(s[j])
    {
      if !inClass(s[k]) || k == hi {
        return false;
      }
      k := k + 1;
    }
    ok := lo <= k;
  }
}

=== FILE: user_entity.dfy ===
/** The `User` aggregate: its fields, the validation patterns on them, the
    column widths they must fit, and the verification tokens and addresses it
    owns. */
module UserEntity {
  import opened Common

  /** Column widths declared on the `user_tbl` table. */
  const UsernameColumn: nat := 15
  const NameColumn: nat := 10
  const EmailColumn: nat := 320

  /** An issued email-verification token: an opaque signed value and the
      instant (milliseconds) at which it was created. The owning user is the
      one whose `tokens` list holds it. */
  datatype VerificationToken = VerificationToken(value: string, created: int)

  /** A postal address; its contents play no part in the account logic. */
  datatype Address = Address(id: nat, line: string)

  datatype User = User(
    id: nat,
    username: string,
    password: string,        // the stored hash, never the plaintext
    email: string,
    firstName: string,
    lastName: string,
    phoneNumber: string,
    emailVerified: bool,
    deleted: bool,           // logical-removal flag
    addresses: seq<Address>,
    tokens: seq<VerificationToken>)

  /** A freshly constructed user: unverified, not removed, and owning no
      addresses and no verification tokens yet. */
  function NewUser(id: nat, username: string, passwordHash: string, email: string,
                   firstName: string, lastName: string, phoneNumber: string): (u: User)
    ensures u.addresses == [] && u.tokens == []
    ensures !u.emailVerified && !u.deleted
    ensures u.id == id && u.username == username && u.password == passwordHash && u.email == email
  {
    User(id, username, passwordHash, email, firstName, lastName, phoneNumber,
         false, false, [], [])
  }

  /** `u` owns a verification token whose value is `v`. */
  predicate HoldsToken(u: User, v: string) {
    exists k :: 0 <= k < |u.tokens| && u.tokens[k].value == v
  }

  /** No token value appears twice in one user's list. */
  predicate DistinctTokenValues(ts: seq<VerificationToken>) {
    forall a, b :: 0 <= a < b < |ts| ==> ts[a].value != ts[b].value
  }

  /** `^[a-z]{2,15}$` */
  predicate ValidUsername(s: string) {
    MatchesClassRepeat(s, IsLowerAscii, 2, 15)
  }

  /** `^[a-z]{3,10}$`, used for both the first and the last name. */
  predicate ValidPersonName(s: string) {
    MatchesClassRepeat(s, IsLowerAscii, 3, 10)
  }

  /** The bean-validation constraints of the entity; the service never
      checks them itself. */
  predicate ValidUser(u: User) {
    ValidUsername(u.username) && ValidPersonName(u.firstName) && ValidPersonName(u.lastName)
    && |u.email| <= EmailColumn
  }

  /** Validates a username; a valid one always fits its column. */
  method CheckUsername(s: string) returns (ok: bool)
    ensures ok <==> 2 <= |s| <= 15 && forall i :: 0 <= i < |s| ==> 'a' <= s[i] <= 'z'
    ensures ok <==> ValidUsername(s)
    ensures ok ==> |s| <= UsernameColumn
  {
    ok := ScanClassRepeat(s, IsLowerAscii, 2, 15);
  }

  /** Validates a first or last name; a valid one always fits its column. */
  method CheckPersonName(s: string) returns (ok: bool)
    ensures ok <==> 3 <= |s| <= 10 && forall i :: 0 <= i < |s| ==> 'a' <= s[i] <= 'z'
    ensures ok <==> ValidPersonName(s)
    ensures ok ==> |s| <= NameColumn
  {
    ok := ScanClassRepeat(s, IsLowerAscii, 3, 10);
  }
}

=== FILE: user_service.dfy ===
/** The account and email-verification operations of the user service. Each
    operation is a pure transition from the current store to a new store and
    an outcome; the outcome covers both normal results and the exceptions the
    service throws. The clock (`now`, milliseconds), the email collaborator's
    success (`mailUp`), the token values the JWT service would mint (`minted`,
    `resetJwt`) and the password hashing service (`enc`) are parameters. */
module UserService {
  import opened Common
  import opened UserEntity
  import opened UserStore

  /** A new verification email is sent only when the token consulted is
      older than one hour. */
  const ResendWindowMillis: int := 60 * 60 * 1000

  /** The password hashing collaborator, left uninterpreted. */
  datatype Encryption = Encryption(hash: string -> string, verify: (string, string) -> bool)

  /** A hash verifies the password it was computed from. */
  ghost predicate Sound(enc: Encryption) {
    forall p :: enc.verify(p, enc.hash(p))
  }

  /** A hash verifies no password other than the one it was computed from.
      This holds for a salted hash as well as for a deterministic one. */
  ghost predicate Distinguishing(enc: Encryption) {
    forall p, q :: enc.verify(p, enc.hash(q)) ==> p == q
  }

  datatype Registration = Registration(
    username: string, email: string, firstName: string, lastName: string,
    password: string, phoneNumber: string)

  datatype Outcome =
    | Saved(user: User)                   // save returns the stored user
    | Found(user: User)                   // findById
    | Done                                // a void operation completed
    | LoggedIn(subject: string)           // an auth JWT carrying this username
    | NoToken                             // loginUser returned null
    | Verified(ok: bool)                  // verifyUser's result
    | UserAlreadyExists
    | UserNotVerified(newEmailSent: bool)
    | EmailNotFound
    | NoContent(id: nat)
    | EmailFailure                        // the email collaborator failed
    | BadResetToken                       // the reset JWT did not decode

  /** `createVerificationToken`: a token with the minted value, stamped
      `now`, added at the END of the user's list; nothing else about the
      user changes. */
  function CreateVerificationToken(u: User, minted: string, now: int): (r: User)
    ensures |r.tokens| == |u.tokens| + 1
    ensures r.tokens[..|u.tokens|] == u.tokens
    ensures r.tokens[|u.tokens|] == VerificationToken(minted, now)
    ensures r.(tokens := u.tokens) == u
  {
    u.(tokens := u.tokens + [VerificationToken(minted, now)])
  }

  /** `save`: registers a new account. Registration is refused when some
      stored user has the same email or the same username ignoring case. The
      verification email is sent before the user is stored, so a failed send
      stores nothing. */
  function Save(s: Store, now: int, mailUp: bool, minted: string, enc: Encryption, body: Registration)
    : (res: (Store, Outcome))
    ensures res.1.UserAlreadyExists? <==>
              exists i :: 0 <= i < |s.users| &&
                (EqualsIgnoreCase(s.users[i].email, body.email) || EqualsIgnoreCase(s.users[i].username, body.username))
    ensures res.1.UserAlreadyExists? || res.1.EmailFailure? || res.1.Saved?
    ensures res.1.EmailFailure? ==> !mailUp
    ensures !res.1.Saved? ==> res.0 == s
    ensures res.1.Saved? ==>
              var u := res.1.user;
              && mailUp
              && res.0.users == s.users + [u]
              && res.0.nextId == s.nextId + 1
              && u.id == s.nextId
              && u.username == body.username && u.email == body.email
              && u.firstName == body.firstName && u.lastName == body.lastName
              && u.phoneNumber == body.phoneNumber
              && u.password == enc.hash(body.password)
              && !u.emailVerified && !u.deleted && u.addresses == []
              && u.tokens == [VerificationToken(minted, now)]
              && res.0.outbox == s.outbox + [VerificationMail(body.email, minted)]
  {
    if FindByEmail(s.users, body.email).Some? || FindByUsername(s.users, body.username).Some? then
      (s, UserAlreadyExists)
    else
      var blank := NewUser(s.nextId, body.username, enc.hash(body.password), body.email,
                           body.firstName, body.lastName, body.phoneNumber);
      var u := CreateVerificationToken(blank, minted, now);
      if !mailUp then
        (s, EmailFailure)
      else
        (Store(s.users + [u], s.nextId + 1, s.outbox + [VerificationMail(u.email, minted)]), Saved(u))
  }

  /** `update`: replaces the stored record that has the same id, or reports
      `NoContent` when there is none. */
  function Update(s: Store, u: User): (res: (Store, Outcome))
    ensures res.1.NoContent? <==> forall j :: 0 <= j < |s.users| ==> s.users[j].id != u.id
    ensures res.1.NoContent? || res.1.Done?
    ensures res.1.NoContent? ==> res.0 == s
    ensures res.1.Done? ==>
              exists i :: 0 <= i < |s.users| && s.users[i].id == u.id && res.0 == s.(users := s.users[i := u])
  {
    match FindById(s.users, u.id)
    case None => (s, NoContent(u.id))
    case Some(i) => (s.(users := s.users[i := u]), Done)
  }

  /** `logicalRemove`: flags the user with this id as deleted, keeping the
      record, or reports `NoContent` when there is none. */
  function LogicalRemove(s: Store, id: nat): (res: (Store, Outcome))
    ensures res.1.NoContent? <==> forall j :: 0 <= j < |s.users| ==> s.users[j].id != id
    ensures res.1.NoContent? || res.1.Done?
    ensures res.1.NoContent? ==> res.0 == s
    ensures res.1.Done? ==>
              exists i :: 0 <= i < |s.users| && s.users[i].id == id &&
                res.0 == s.(users := s.users[i := s.users[i].(deleted := true)])
  {
    match FindById(s.users, id)
    case None => (s, NoContent(id))
    case Some(i) => (s.(users := s.users[i := s.users[i].(deleted := true)]), Done)
  }

  /** `findById`: the stored user with this id, whether or not it has been
      logically removed, or `NoContent`. */
  function FindUser(s: Store, id: nat): (r: Outcome)
    ensures r.NoContent? <==> forall j :: 0 <= j < |s.users| ==> s.users[j].id != id
    ensures r.NoContent? || r.Found?
    ensures r.Found? ==> r.user in s.users && r.user.id == id
  {
    match FindById(s.users, id)
    case None => NoContent(id)
    case Some(i) => Found(s.users[i])
  }

  /** The resend decision as the code makes it: the list is empty, or its
      first element was created strictly more than one hour before `now`. */
  predicate ShouldResend(tokens: seq<VerificationToken>, now: int) {
    |tokens| == 0 || tokens[0].created < now - ResendWindowMillis
  }

  /** The resend decision made on the newest token, whatever the list order:
      every token was created strictly more than one hour before `now`. */
  predicate ShouldResendNewest(tokens: seq<VerificationToken>, now: int) {
    forall k :: 0 <= k < |tokens| ==> tokens[k].created < now - ResendWindowMillis
  }

  /** Which token the resend decision consults. */
  datatype ResendRule = FirstListed | Newest

  predicate ResendDue(rule: ResendRule, tokens: seq<VerificationToken>, now: int) {
    match rule
    case FirstListed => ShouldResend(tokens, now)
    case Newest => ShouldResendNewest(tokens, now)
  }

  /** `loginUser` under a given resend rule. An unknown username and a wrong
      password both give `NoToken` and change nothing. A verified user gets an
      auth token. An unverified user always gets `UserNotVerified`, after a
      new token is stored and emailed when the rule says so; the token is
      stored before the email is sent, so a failed send leaves it stored. */
  function LoginUnder(rule: ResendRule, s: Store, now: int, mailUp: bool, minted: string,
                      enc: Encryption, name: string, password: string): (res: (Store, Outcome))
    ensures res.1.NoToken? || res.1.LoggedIn? || res.1.UserNotVerified? || res.1.EmailFailure?
    ensures res.1.NoToken? || res.1.LoggedIn? || res.1 == UserNotVerified(false) ==> res.0 == s
    ensures res.1.NoToken? <==>
              (forall j :: 0 <= j < |s.users| ==> !EqualsIgnoreCase(s.users[j].username, name))
              || !enc.verify(password, s.users[FindByUsername(s.users, name).value].password)
    ensures res.1.LoggedIn? ==>
              exists i :: 0 <= i < |s.users| && s.users[i].emailVerified && res.1.subject == s.users[i].username
                && EqualsIgnoreCase(s.users[i].username, name)
    ensures FindByUsername(s.users, name).Some? &&
            enc.verify(password, s.users[FindByUsername(s.users, name).value].password) ==>
              (res.1.LoggedIn? <==> s.users[FindByUsername(s.users, name).value].emailVerified)
    ensures res.1 == UserNotVerified(true) || res.1.EmailFailure? ==>
              && |res.0.users| == |s.users|
              && res.0.nextId == s.nextId
              && (res.1.EmailFailure? <==> !mailUp)
              && (res.1.EmailFailure? ==> res.0.outbox == s.outbox)
              && (res.1.UserNotVerified? ==> |res.0.outbox| == |s.outbox| + 1)
  {
    match FindByUsername(s.users, name)
    case None => (s, NoToken)
    case Some(i) =>
      var u := s.users[i];
      if !enc.verify(password, u.password) then (s, NoToken)
      else if u.emailVerified then (s, LoggedIn(u.username))
      else if !ResendDue(rule, u.tokens, now) then (s, UserNotVerified(false))
      else
        var stored := s.(users := s.users[i := CreateVerificationToken(u, minted, now)]);
        if mailUp then
          (stored.(outbox := s.outbox + [VerificationMail(u.email, minted)]), UserNotVerified(true))
        else
          (stored, EmailFailure)
  }

  /** `loginUser` as written: the resend decision reads the first token of
      the list. */
  function Login(s: Store, now: int, mailUp: bool, minted: string, enc: Encryption,
                 name: string, password: string): (res: (Store, Outcome))
    ensures res.1.UserNotVerified? || res.1.EmailFailure? ==>
              && FindByUsername(s.users, name).Some?
              && (res.1 == UserNotVerified(false) <==>
                    !ShouldResend(s.users[FindByUsername(s.users, name).value].tokens, now))
  {
    LoginUnder(FirstListed, s, now, mailUp, minted, enc, name, password)
  }

  /** `loginUser` with the resend decision made on the newest token. */
  function LoginNewest(s: Store, now: int, mailUp: bool, minted: string, enc: Encryption,
                       name: string, password: string): (res: (Store, Outcome))
    ensures res.1.UserNotVerified? || res.1.EmailFailure? ==>
              && FindByUsername(s.users, name).Some?
              && (res.1 == UserNotVerified(false) <==>
                    !ShouldResendNewest(s.users[FindByUsername(s.users, name).value].tokens, now))
  {
    LoginUnder(Newest, s, now, mailUp, minted, enc, name, password)
  }

  /** `verifyUser`: consumes a verification token. It succeeds only when the
      token is stored and its owner is not yet verified; the owner then
      becomes verified and loses all its tokens. Otherwise nothing changes. */
  function VerifyUser(s: Store, token: string): (res: (Store, Outcome))
    ensures res.1 == Verified(true) || res.1 == Verified(false)
    ensures res.1 == Verified(false) ==> res.0 == s
    ensures res.1 == Verified(true) <==>
              exists i :: 0 <= i < |s.users| && HoldsToken(s.users[i], token) && !s.users[i].emailVerified
                && FindByToken(s.users, token) == Some(i)
    ensures res.1 == Verified(true) ==>
              && |res.0.users| == |s.users|
              && res.0.outbox == s.outbox && res.0.nextId == s.nextId
              && forall j :: 0 <= j < |s.users| ==>
                   if HoldsToken(s.users[j], token) && FindByToken(s.users, token) == Some(j)
                   then res.0.users[j] == s.users[j].(emailVerified := true, tokens := [])
                   else res.0.users[j] == s.users[j]
  {
    match FindByToken(s.users, token)
    case None => (s, Verified(false))
    case Some(i) =>
      var u := s.users[i];
      if u.emailVerified then (s, Verified(false))
      else (s.(users := s.users[i := u.(emailVerified := true, tokens := [])]), Verified(true))
  }

  /** `forgotPassword`: emails a reset token to the stored address of the
      user with this email (ignoring case), or reports `EmailNotFound`. The
      store is never changed. */
  function ForgotPassword(s: Store, mailUp: bool, resetJwt: string, email: string): (res: (Store, Outcome))
    ensures res.0.users == s.users && res.0.nextId == s.nextId
    ensures res.1.EmailNotFound? <==> forall j :: 0 <= j < |s.users| ==> !EqualsIgnoreCase(s.users[j].email, email)
    ensures res.1.EmailNotFound? || res.1.EmailFailure? || res.1.Done?
    ensures res.1.EmailFailure? ==> !mailUp
    ensures res.1.Done? ==> mailUp
    ensures !mailUp ==> res.0 == s
    ensures !res.1.Done? ==> res.0 == s
    ensures res.1.Done? ==>
              exists i :: 0 <= i < |s.users| && EqualsIgnoreCase(s.users[i].email, email)
                && res.0.outbox == s.outbox + [ResetMail(s.users[i].email, resetJwt)]
  {
    match FindByEmail(s.users, email)
    case None => (s, EmailNotFound)
    case Some(i) =>
      if mailUp then (s.(outbox := s.outbox + [ResetMail(s.users[i].email, resetJwt)]), Done)
      else (s, EmailFailure)
  }

  /** `resetPassword`: `decoded` is the email carried by the reset JWT, or
      `None` when the JWT service rejected the token. The matching user's
      password hash is replaced; when no user matches nothing changes. */
  function ResetPassword(s: Store, enc: Encryption, decoded: Option<string>, newPassword: string)
    : (res: (Store, Outcome))
    ensures decoded.None? <==> res.1.BadResetToken?
    ensures res.1.BadResetToken? || res.1.Done?
    ensures res.0.outbox == s.outbox && res.0.nextId == s.nextId && |res.0.users| == |s.users|
    ensures (decoded.Some? && forall j :: 0 <= j < |s.users| ==> !EqualsIgnoreCase(s.users[j].email, decoded.value))
              ==> res.0 == s
    ensures forall j :: 0 <= j < |s.users| ==>
              res.0.users[j] == s.users[j] || res.0.users[j] == s.users[j].(password := enc.hash(newPassword))
    ensures forall j :: 0 <= j < |s.users| && res.0.users[j] != s.users[j] ==>
              decoded.Some? && EqualsIgnoreCase(s.users[j].email, decoded.value)
    ensures decoded.Some? && FindByEmail(s.users, decoded.value).Some? ==>
              var i := FindByEmail(s.users, decoded.value).value;
              res.0.users[i] == s.users[i].(password := enc.hash(newPassword))
  {
    match decoded
    case None => (s, BadResetToken)
    case Some(email) =>
      match FindByEmail(s.users, email)
      case None => (s, Done)
      case Some(i) => (s.(users := s.users[i := s.users[i].(password := enc.hash(newPassword))]), Done)
  }

  /** `userHasPermissionToUser`: a user may act on the account with this id
      only when it is its own; ids are compared by value. */
  function UserHasPermissionToUser(u: User, id: nat): (r: bool)
    ensures r <==> u.id == id
  {
    u.id == id
  }

  /** A boxed `java.lang.Long`. A cached box is the one shared object for
      its value; any other box is a distinct object holding its value, told
      apart from other boxes by its allocation number. Two boxes are the same
      object exactly when they are equal as values of this type, so one
      object never holds two values. */
  datatype BoxedLong =
    | Cached(value: int)
    | Allocated(value: int, allocation: nat)

  /** `Long.valueOf` (autoboxing): values in -128..127 come from the shared
      cache; any other value is put in a new object. */
  function LongValueOf(v: int, allocation: nat): (b: BoxedLong)
    ensures b.value == v
    ensures b.Cached? <==> -128 <= v <= 127
  {
    if -128 <= v <= 127 then Cached(v) else Allocated(v, allocation)
  }

  /** `userHasPermissionToUser` as written: `==` on two boxed ids compares
      the objects, not the values; the same object always holds the same
      value, so access is never granted across different ids. */
  function UserHasPermissionAsWritten(userId: BoxedLong, id: BoxedLong): (r: bool)
    ensures r ==> userId.value == id.value
  {
    userId == id
  }
}

=== FILE: user_service_props.dfy ===
/** Properties of the user service: the store invariant each operation keeps,
    the login decision tree, the resend window, token consumption and
    password reset. */
module UserServiceProps {
  import opened Common
  import opened UserEntity
  import opened UserStore
  import opened UserService

  // ---------------------------------------------------------------------
  // Lookups in a store whose identities are unique
  // ---------------------------------------------------------------------

  /** With unique usernames, the case-insensitive username lookup finds the
      one user whose name matches. */
  lemma UsernameLookupFindsTheMatch(s: Store, name: string, i: nat)
    requires UniqueIdentities(s)
    requires i < |s.users| && EqualsIgnoreCase(s.users[i].username, name)
    ensures FindByUsername(s.users, name) == Some(i)
  {
  }

  /** Replacing user `i` by a record with the same id, username and email
      keeps ids and identities unique. */
  lemma SameIdentitiesKeepUniqueness(s: Store, i: nat, u: User)
    requires IdsIssued(s) && UniqueIdentities(s) && i < |s.users|
    requires u.id == s.users[i].id && u.username == s.users[i].username && u.email == s.users[i].email
    ensures IdsIssued(s.(users := s.users[i := u]))
    ensures UniqueIdentities(s.(users := s.users[i := u]))
  {
  }

  /** Replacing user `i` by a record whose tokens are a subset of its old
      ones plus possibly one fresh value keeps token ownership unique. */
  lemma TokensStayOwnedOnce(s: Store, i: nat, u: User, minted: string)
    requires TokensOwnedOnce(s) && FreshToken(s, minted) && i < |s.users|
    requires DistinctTokenValues(u.tokens)
    requires forall v :: HoldsToken(u, v) ==> HoldsToken(s.users[i], v) || v == minted
    ensures TokensOwnedOnce(s.(users := s.users[i := u]))
  {
  }

  /** Appending a token with a fresh value keeps the values in the list
      distinct, and the extended list holds exactly the old values and the new
      one. */
  lemma AppendFreshToken(u: User, tok: VerificationToken)
    requires DistinctTokenValues(u.tokens) && !HoldsToken(u, tok.value)
    ensures DistinctTokenValues(u.tokens + [tok])
    ensures forall v :: HoldsToken(u.(tokens := u.tokens + [tok]), v) ==> HoldsToken(u, v) || v == tok.value
  {
  }

  // ---------------------------------------------------------------------
  // save
  // ---------------------------------------------------------------------

  /** A successful registration keeps ids issued, identities unique and
      tokens owned once, provided the minted token value is fresh; a refused
      registration leaves the store as it was. */
  lemma SaveKeepsStoreWellFormed(s: Store, now: int, mailUp: bool, minted: string,
                                                    enc: Encryption, body: Registration)
    requires WellFormed(s) && FreshToken(s, minted)
    ensures WellFormed(Save(s, now, mailUp, minted, enc, body).0)
  {
    var res := Save(s, now, mailUp, minted, enc, body);
    if res.1.Saved? {
      var u := res.1.user;
      var t := res.0;
      assert t.users == s.users + [u];
      assert forall j :: 0 <= j < |s.users| ==>
        !EqualsIgnoreCase(s.users[j].email, u.email) && !EqualsIgnoreCase(s.users[j].username, u.username);
      forall v | HoldsToken(u, v)
        ensures v == minted
      {
        var k :| 0 <= k < |u.tokens| && u.tokens[k].value == v;
      }
      forall a, b | 0 <= a < b < |t.users|
        ensures t.users[a].id != t.users[b].id
        ensures !EqualsIgnoreCase(t.users[a].username, t.users[b].username)
        ensures !EqualsIgnoreCase(t.users[a].email, t.users[b].email)
      {
        assert t.users[a] == s.users[a];
        if b == |s.users| {
          assert t.users[b] == u;
        } else {
          assert t.users[b] == s.users[b];
        }
      }
      forall a, b, v | 0 <= a < b < |t.users| && HoldsToken(t.users[a], v)
        ensures !HoldsToken(t.users[b], v)
      {
        assert t.users[a] == s.users[a];
        if b == |s.users| {
          assert t.users[b] == u;
        } else {
          assert t.users[b] == s.users[b];
        }
      }
    }
  }

  /** The stored credential is the hash of the registered password, so with
      a sound hash the registered password logs in. */
  lemma SavedPasswordVerifies(s: Store, now: int, mailUp: bool, minted: string,
                              enc: Encryption, body: Registration)
    requires Sound(enc)
    ensures var (t, o) := Save(s, now, mailUp, minted, enc, body);
            o.Saved? ==> enc.verify(body.password, o.user.password)
  {
  }

  /** The service code copies the registration fields without checking the
      entity's patterns, so the model's `save` registers a username of one
      upper-case letter into an empty store. Refusals by the persistence
      layer at insert time are not part of the model. */
  lemma SaveStoresUnvalidatedFields(now: int, minted: string, enc: Encryption)
    ensures var body := Registration("A", "a@b", "jo", "li", "pw", "");
            var (t, o) := Save(Store([], 0, []), now, true, minted, enc, body);
            o.Saved? && !ValidUser(o.user)
  {
    var body := Registration("A", "a@b", "jo", "li", "pw", "");
    var o := Save(Store([], 0, []), now, true, minted, enc, body).1;
    assert o.Saved? && o.user.username == "A";
    assert !ValidUsername("A");
  }

  // ---------------------------------------------------------------------
  // loginUser
  // ---------------------------------------------------------------------

  /** An unknown username and a wrong password produce the same answer: no
      token, and no change to the store or the outbox. */
  lemma LoginRejectsUnknownUserAndWrongPasswordAlike(
    s: Store, now: int, mailUp: bool, minted: string, enc: Encryption, name: string, password: string)
    requires UniqueIdentities(s)
    ensures (forall j :: 0 <= j < |s.users| ==> !EqualsIgnoreCase(s.users[j].username, name))
              ==> Login(s, now, mailUp, minted, enc, name, password) == (s, NoToken)
    ensures forall i :: 0 <= i < |s.users| && EqualsIgnoreCase(s.users[i].username, name)
                          && !enc.verify(password, s.users[i].password)
              ==> Login(s, now, mailUp, minted, enc, name, password) == (s, NoToken)
  {
  }

  /** A verified user with the right password gets an auth token for its
      stored username, and nothing changes. */
  lemma LoginVerifiedIssuesAuthToken(
    s: Store, now: int, mailUp: bool, minted: string, enc: Encryption, name: string, password: string, i: nat)
    requires UniqueIdentities(s)
    requires i < |s.users| && EqualsIgnoreCase(s.users[i].username, name)
    requires enc.verify(password, s.users[i].password) && s.users[i].emailVerified
    ensures Login(s, now, mailUp, minted, enc, name, password) == (s, LoggedIn(s.users[i].username))
  {
  }

  /** The resend rule for an unverified user with the right password: when
      a resend is due exactly one token stamped `now` is appended to the
      user's list and exactly one verification email goes to its address, and
      otherwise nothing changes; `UserNotVerified` always reports whether the
      email was sent, unless the send itself failed, which leaves the new
      token stored. */
  lemma LoginUnverifiedAppliesResendRule(
    rule: ResendRule, s: Store, now: int, mailUp: bool, minted: string, enc: Encryption,
    name: string, password: string, i: nat)
    requires UniqueIdentities(s)
    requires i < |s.users| && EqualsIgnoreCase(s.users[i].username, name)
    requires enc.verify(password, s.users[i].password) && !s.users[i].emailVerified
    ensures var u := s.users[i];
            var stored := s.(users := s.users[i := u.(tokens := u.tokens + [VerificationToken(minted, now)])]);
            LoginUnder(rule, s, now, mailUp, minted, enc, name, password) ==
              if !ResendDue(rule, u.tokens, now) then (s, UserNotVerified(false))
              else if mailUp then (stored.(outbox := s.outbox + [VerificationMail(u.email, minted)]), UserNotVerified(true))
              else (stored, EmailFailure)
  {
  }

  /** The window is one hour in milliseconds and the comparison is strict:
      a first token exactly one hour old does not trigger a resend, one a
      millisecond older does. */
  lemma ResendWindowIsStrict(tokens: seq<VerificationToken>, now: int)
    requires |tokens| > 0
    ensures tokens[0].created == now - 3_600_000 ==> !ShouldResend(tokens, now)
    ensures tokens[0].created == now - 3_600_001 ==> ShouldResend(tokens, now)
  {
  }

  /** After a resend, the user is still the one the lookup finds, its
      identity fields are unchanged, and the store still has unique
      identities. */
  lemma ResentStoreKeepsLookup(s: Store, i: nat, name: string, tok: VerificationToken)
    requires IdsIssued(s) && UniqueIdentities(s)
    requires i < |s.users| && EqualsIgnoreCase(s.users[i].username, name)
    ensures var t := s.(users := s.users[i := s.users[i].(tokens := s.users[i].tokens + [tok])]);
            IdsIssued(t) && UniqueIdentities(t) && FindByUsername(t.users, name) == Some(i)
  {
    var u := s.users[i].(tokens := s.users[i].tokens + [tok]);
    SameIdentitiesKeepUniqueness(s, i, u);
    UsernameLookupFindsTheMatch(s.(users := s.users[i := u]), name, i);
  }

  /** Two unverified logins at the same instant, on a user that has no
      token yet: the first stores one token, sends one email and reports
      `newEmailSent`; the second sends nothing more and reports that no
      email was sent. */
  lemma LoginTwiceAtSameInstantSendsOnce(
    s: Store, now: int, minted1: string, minted2: string, enc: Encryption,
    name: string, password: string, i: nat)
    requires IdsIssued(s) && UniqueIdentities(s)
    requires i < |s.users| && EqualsIgnoreCase(s.users[i].username, name)
    requires enc.verify(password, s.users[i].password) && !s.users[i].emailVerified
    requires s.users[i].tokens == []
    ensures var (s1, o1) := Login(s, now, true, minted1, enc, name, password);
            var (s2, o2) := Login(s1, now, true, minted2, enc, name, password);
            && o1 == UserNotVerified(true) && |s1.outbox| == |s.outbox| + 1
            && o2 == UserNotVerified(false) && s2 == s1
  {
    var tok := VerificationToken(minted1, now);
    LoginUnverifiedAppliesResendRule(FirstListed, s, now, true, minted1, enc, name, password, i);
    ResentStoreKeepsLookup(s, i, name, tok);
    assert s.users[i].tokens + [tok] == [tok];
    var s1 := Login(s, now, true, minted1, enc, name, password).0;
    assert s1.users == s.users[i := s.users[i].(tokens := [tok])];
    LoginUnverifiedAppliesResendRule(FirstListed, s1, now, true, minted2, enc, name, password, i);
  }

  /** Once the resend window has passed since the first token, another
      unverified login sends exactly one more email. */
  lemma LoginAfterWindowSendsAgain(
    s: Store, t1: int, t2: int, minted1: string, minted2: string, enc: Encryption,
    name: string, password: string, i: nat)
    requires IdsIssued(s) && UniqueIdentities(s)
    requires i < |s.users| && EqualsIgnoreCase(s.users[i].username, name)
    requires enc.verify(password, s.users[i].password) && !s.users[i].emailVerified
    requires s.users[i].tokens == []
    requires t2 > t1 + ResendWindowMillis
    ensures var (s1, o1) := Login(s, t1, true, minted1, enc, name, password);
            var (s2, o2) := Login(s1, t2, true, minted2, enc, name, password);
            && o2 == UserNotVerified(true) && s2.outbox == s1.outbox + [VerificationMail(s.users[i].email, minted2)]
  {
    var tok := VerificationToken(minted1, t1);
    LoginUnverifiedAppliesResendRule(FirstListed, s, t1, true, minted1, enc, name, password, i);
    ResentStoreKeepsLookup(s, i, name, tok);
    assert s.users[i].tokens + [tok] == [tok];
    var s1 := Login(s, t1, true, minted1, enc, name, password).0;
    assert s1.users == s.users[i := s.users[i].(tokens := [tok])];
    LoginUnverifiedAppliesResendRule(FirstListed, s1, t2, true, minted2, enc, name, password, i);
  }

  /** A login keeps the store well formed under either resend rule,
      provided the minted token value is fresh. */
  lemma LoginKeepsStoreWellFormed(
    rule: ResendRule, s: Store, now: int, mailUp: bool, minted: string, enc: Encryption,
    name: string, password: string)
    requires WellFormed(s) && FreshToken(s, minted)
    ensures WellFormed(LoginUnder(rule, s, now, mailUp, minted, enc, name, password).0)
  {
    var res := LoginUnder(rule, s, now, mailUp, minted, enc, name, password);
    if res.0 != s {
      var i := FindByUsername(s.users, name).value;
      var u := s.users[i];
      var tok := VerificationToken(minted, now);
      var w := u.(tokens := u.tokens + [tok]);
      LoginUnverifiedAppliesResendRule(rule, s, now, mailUp, minted, enc, name, password, i);
      AppendFreshToken(u, tok);
      SameIdentitiesKeepUniqueness(s, i, w);
      TokensStayOwnedOnce(s, i, w, minted);
    }
  }

  // ---------------------------------------------------------------------
  // verifyUser
  // ---------------------------------------------------------------------

  /** Consuming a token held by user `i`: when `i` is unverified it becomes
      verified, loses all its tokens, and the answer is true; when it is
      already verified the answer is false and nothing changes. */
  lemma VerifyUserConsumesOwnersTokens(s: Store, token: string, i: nat)
    requires TokensOwnedOnce(s)
    requires i < |s.users| && HoldsToken(s.users[i], token)
    ensures VerifyUser(s, token) ==
              if s.users[i].emailVerified then (s, Verified(false))
              else (s.(users := s.users[i := s.users[i].(emailVerified := true, tokens := [])]), Verified(true))
  {
  }

  /** A token nobody holds verifies nothing. */
  lemma VerifyUserRejectsUnknownToken(s: Store, token: string)
    requires FreshToken(s, token)
    ensures VerifyUser(s, token) == (s, Verified(false))
  {
  }

  /** Replaying a token that has just been consumed returns false and
      changes nothing. */
  lemma VerifyUserReplayFails(s: Store, token: string)
    requires TokensOwnedOnce(s)
    requires VerifyUser(s, token).1 == Verified(true)
    ensures var t := VerifyUser(s, token).0;
            VerifyUser(t, token) == (t, Verified(false))
  {
  }

  /** Verification keeps the store well formed. */
  lemma VerifyUserKeepsStoreWellFormed(s: Store, token: string)
    requires WellFormed(s)
    ensures WellFormed(VerifyUser(s, token).0)
  {
    match FindByToken(s.users, token)
    case None =>
    case Some(i) =>
      var u := s.users[i].(emailVerified := true, tokens := []);
      SameIdentitiesKeepUniqueness(s, i, u);
      var t := s.users[i := u];
      assert !HoldsToken(u, token) && DistinctTokenValues(u.tokens);
      forall a, b, v | 0 <= a < b < |t| && HoldsToken(t[a], v)
        ensures !HoldsToken(t[b], v)
      {
        assert a != i && t[a] == s.users[a];
        if b != i {
          assert t[b] == s.users[b];
        }
      }
  }

  // ---------------------------------------------------------------------
  // forgotPassword / resetPassword
  // ---------------------------------------------------------------------

  /** `forgotPassword` for a known email sends one reset email to the
      matching user's stored address and changes no user. */
  lemma ForgotPasswordMailsStoredAddress(
    s: Store, resetJwt: string, email: string, i: nat)
    requires UniqueIdentities(s)
    requires i < |s.users| && EqualsIgnoreCase(s.users[i].email, email)
    ensures ForgotPassword(s, true, resetJwt, email) ==
              (s.(outbox := s.outbox + [ResetMail(s.users[i].email, resetJwt)]), Done)
  {
  }

  /** A decoded reset token replaces exactly the matching user's hash and
      leaves every other user unchanged. With a sound hash the new password
      then verifies; with a distinguishing hash the old one no longer does. */
  lemma ResetPasswordReplacesCredential(
    s: Store, enc: Encryption, email: string, oldPassword: string, newPassword: string, i: nat)
    requires UniqueIdentities(s)
    requires i < |s.users| && EqualsIgnoreCase(s.users[i].email, email)
    ensures var t := ResetPassword(s, enc, Some(email), newPassword).0;
            && t.users[i] == s.users[i].(password := enc.hash(newPassword))
            && forall j :: 0 <= j < |s.users| && j != i ==> t.users[j] == s.users[j]
    ensures var t := ResetPassword(s, enc, Some(email), newPassword).0;
            Sound(enc) ==> enc.verify(newPassword, t.users[i].password)
    ensures var t := ResetPassword(s, enc, Some(email), newPassword).0;
            Distinguishing(enc) && oldPassword != newPassword ==> !enc.verify(oldPassword, t.users[i].password)
  {
  }

  /** Password reset and password recovery keep the store well formed. */
  lemma PasswordOperationsKeepStoreWellFormed(
    s: Store, enc: Encryption, mailUp: bool, resetJwt: string, decoded: Option<string>,
    email: string, newPassword: string)
    requires WellFormed(s)
    ensures WellFormed(ResetPassword(s, enc, decoded, newPassword).0)
    ensures WellFormed(ForgotPassword(s, mailUp, resetJwt, email).0)
  {
    if decoded.Some? && FindByEmail(s.users, decoded.value).Some? {
      var i := FindByEmail(s.users, decoded.value).value;
      var w := s.users[i].(password := enc.hash(newPassword));
      var t := s.users[i := w];
      assert ResetPassword(s, enc, decoded, newPassword).0 == s.(users := t);
      SameIdentitiesKeepUniqueness(s, i, w);
      forall a, b, v | 0 <= a < b < |t| && HoldsToken(t[a], v)
        ensures !HoldsToken(t[b], v)
      {
        assert HoldsToken(s.users[a], v);
      }
    }
  }

  // ---------------------------------------------------------------------
  // logicalRemove / findById
  // ---------------------------------------------------------------------

  /** With distinct ids, the id lookup finds the one user with that id. */
  lemma IdLookupFindsTheMatch(users: seq<User>, i: nat)
    requires forall a, b :: 0 <= a < b < |users| ==> users[a].id != users[b].id
    requires i < |users|
    ensures FindById(users, users[i].id) == Some(i)
  {
  }

  /** Logical removal keeps the record: `findById` still returns it, now
      flagged as deleted, and the store stays well formed. */
  lemma LogicalRemoveRetainsRecord(s: Store, i: nat)
    requires WellFormed(s) && i < |s.users|
    ensures var t := LogicalRemove(s, s.users[i].id).0;
            && FindUser(t, s.users[i].id) == Found(s.users[i].(deleted := true))
            && WellFormed(t)
  {
    var w := s.users[i].(deleted := true);
    IdLookupFindsTheMatch(s.users, i);
    var t := s.(users := s.users[i := w]);
    assert LogicalRemove(s, s.users[i].id).0 == t;
    SameIdentitiesKeepUniqueness(s, i, w);
    IdLookupFindsTheMatch(t.users, i);
    forall a, b, v | 0 <= a < b < |t.users| && HoldsToken(t.users[a], v)
      ensures !HoldsToken(t.users[b], v)
    {
      assert HoldsToken(s.users[a], v);
    }
  }

  // ---------------------------------------------------------------------
  // Which token the resend decision reads
  // ---------------------------------------------------------------------

  /** Adding a token to one user keeps every other token value fresh. */
  lemma OtherTokenStaysFresh(s: Store, i: nat, tok: VerificationToken, v: string)
    requires FreshToken(s, v) && tok.value != v && i < |s.users|
    ensures FreshToken(s.(users := s.users[i := s.users[i].(tokens := s.users[i].tokens + [tok])]), v)
  {
    var u := s.users[i].(tokens := s.users[i].tokens + [tok]);
    assert !HoldsToken(s.users[i], v);
    assert forall k :: 0 <= k < |u.tokens| ==> u.tokens[k] == (s.users[i].tokens + [tok])[k];
  }

  /** As written, the decision reads the first-listed token, which is the
      oldest since new tokens are appended. Once it is over an hour old, every
      login of the unverified user sends another email: two logins within
      the same hour, each with its own freshly minted token value, both send
      one, and the store stays well formed. */
  lemma FirstListedRuleResendsOnEveryLogin(
    s: Store, t1: int, t2: int, minted1: string, minted2: string, enc: Encryption,
    name: string, password: string, i: nat)
    requires WellFormed(s) && FreshToken(s, minted1) && FreshToken(s, minted2) && minted1 != minted2
    requires i < |s.users| && EqualsIgnoreCase(s.users[i].username, name)
    requires enc.verify(password, s.users[i].password) && !s.users[i].emailVerified
    requires |s.users[i].tokens| > 0 && s.users[i].tokens[0].created < t1 - ResendWindowMillis
    requires t1 < t2 <= t1 + ResendWindowMillis
    ensures var (s1, o1) := Login(s, t1, true, minted1, enc, name, password);
            var (s2, o2) := Login(s1, t2, true, minted2, enc, name, password);
            && o1 == UserNotVerified(true) && o2 == UserNotVerified(true)
            && |s2.outbox| == |s.outbox| + 2
            && WellFormed(s2)
  {
    var tok := VerificationToken(minted1, t1);
    LoginUnverifiedAppliesResendRule(FirstListed, s, t1, true, minted1, enc, name, password, i);
    ResentStoreKeepsLookup(s, i, name, tok);
    var s1 := Login(s, t1, true, minted1, enc, name, password).0;
    assert s1.users[i].tokens == s.users[i].tokens + [tok];
    LoginKeepsStoreWellFormed(FirstListed, s, t1, true, minted1, enc, name, password);
    OtherTokenStaysFresh(s, i, tok, minted2);
    LoginUnverifiedAppliesResendRule(FirstListed, s1, t2, true, minted2, enc, name, password, i);
    LoginKeepsStoreWellFormed(FirstListed, s1, t2, true, minted2, enc, name, password);
  }

  /** Deciding on the newest token instead: after a login that sends an
      email, no further login within the resend window sends another. */
  lemma NewestRuleSendsAtMostOncePerWindow(
    s: Store, t1: int, t2: int, minted1: string, minted2: string, enc: Encryption,
    name: string, password: string, i: nat)
    requires IdsIssued(s) && UniqueIdentities(s)
    requires i < |s.users| && EqualsIgnoreCase(s.users[i].username, name)
    requires enc.verify(password, s.users[i].password) && !s.users[i].emailVerified
    requires t1 <= t2 <= t1 + ResendWindowMillis
    ensures var (s1, o1) := LoginNewest(s, t1, true, minted1, enc, name, password);
            var (s2, o2) := LoginNewest(s1, t2, true, minted2, enc, name, password);
            o1 == UserNotVerified(true) ==> o2 == UserNotVerified(false) && s2 == s1
  {
    var tok := VerificationToken(minted1, t1);
    var ts := s.users[i].tokens;
    LoginUnverifiedAppliesResendRule(Newest, s, t1, true, minted1, enc, name, password, i);
    if ResendDue(Newest, ts, t1) {
      ResentStoreKeepsLookup(s, i, name, tok);
      var s1 := LoginNewest(s, t1, true, minted1, enc, name, password).0;
      assert s1.users[i].tokens == ts + [tok];
      assert (ts + [tok])[|ts|].created == t1;
      LoginUnverifiedAppliesResendRule(Newest, s1, t2, true, minted2, enc, name, password, i);
    }
  }

  // ---------------------------------------------------------------------
  // Comparing boxed ids
  // ---------------------------------------------------------------------

  /** The value comparison grants a stored user access to exactly the
      account `findById` resolves to that same user. */
  lemma PermissionMeansOwnRecord(s: Store, u: User, id: nat, i: nat)
    requires IdsIssued(s) && i < |s.users| && s.users[i] == u
    ensures UserHasPermissionToUser(u, id) <==> FindUser(s, id) == Found(u)
  {
  }

  /** As written, the identity comparison never grants more than the value
      comparison: equal boxes always hold equal ids. */
  lemma PermissionAsWrittenNeverGrantsOtherIds(u: User, id: nat, a: nat, b: nat)
    ensures UserHasPermissionAsWritten(LongValueOf(u.id, a), LongValueOf(id, b)) ==> UserHasPermissionToUser(u, id)
  {
  }

  /** As written, the owner of an account whose id is above 127 is refused
      access to it whenever the two ids were boxed separately, although the
      values are equal. */
  lemma PermissionAsWrittenRefusesOwnerAboveLongCache(u: User, a: nat, b: nat)
    requires u.id > 127 && a != b
    ensures !UserHasPermissionAsWritten(LongValueOf(u.id, a), LongValueOf(u.id, b))
    ensures UserHasPermissionToUser(u, u.id)
  {
  }

  /** Within the `Long` cache the two comparisons agree. */
  lemma PermissionAsWrittenAgreesInsideLongCache(u: User, id: nat, a: nat, b: nat)
    requires u.id <= 127 && id <= 127
    ensures UserHasPermissionAsWritten(LongValueOf(u.id, a), LongValueOf(id, b)) == UserHasPermissionToUser(u, id)
  {
  }
}

=== FILE: user_store.dfy ===
/** The persistent state the user service reads and writes: the stored users
    (with the tokens and addresses they own), the id sequence, and the outbox
    of emails sent so far. Lookups are the repository queries the service
    uses; each returns the position of the first matching record. */
module UserStore {
  import opened Common
  import opened UserEntity

  /** An email handed to the delivery collaborator. */
  datatype Mail =
    | VerificationMail(to: string, token: string)
    | ResetMail(to: string, token: string)

  datatype Store = Store(users: seq<User>, nextId: nat, outbox: seq<Mail>)

  /** Position of the first user satisfying `p`, if any. */
  function IndexWhere(users: seq<User>, p: User -> bool): (r: Option<nat>)
    ensures r.Some? ==> r.value < |users| && p(users[r.value])
    ensures r.Some? ==> forall j :: 0 <= j < r.value ==> !p(users[j])
    ensures r.None? <==> forall j :: 0 <= j < |users| ==> !p(users[j])
  {
    if |users| == 0 then None
    else if p(users[0]) then Some(0)
    else match IndexWhere(users[1..], p)
      case None => None
      case Some(k) => Some(k + 1)
  }

  /** `findById` */
  function FindById(users: seq<User>, id: nat): (r: Option<nat>)
    ensures r.Some? ==> r.value < |users| && users[r.value].id == id
    ensures r.None? <==> forall j :: 0 <= j < |users| ==> users[j].id != id
  {
    IndexWhere(users, (u: User) => u.id == id)
  }

  /** `findByUsernameIgnoreCase` */
  function FindByUsername(users: seq<User>, name: string): (r: Option<nat>)
    ensures r.Some? ==> r.value < |users| && EqualsIgnoreCase(users[r.value].username, name)
    ensures r.None? <==> forall j :: 0 <= j < |users| ==> !EqualsIgnoreCase(users[j].username, name)
  {
    IndexWhere(users, (u: User) => EqualsIgnoreCase(u.username, name))
  }

  /** `findByEmailIgnoreCase` */
  function FindByEmail(users: seq<User>, email: string): (r: Option<nat>)
    ensures r.Some? ==> r.value < |users| && EqualsIgnoreCase(users[r.value].email, email)
    ensures r.None? <==> forall j :: 0 <= j < |users| ==> !EqualsIgnoreCase(users[j].email, email)
  {
    IndexWhere(users, (u: User) => EqualsIgnoreCase(u.email, email))
  }

  /** `findByToken` on the verification-token table, answered with the
      position of the token's owner. */
  function FindByToken(users: seq<User>, v: string): (r: Option<nat>)
    ensures r.Some? ==> r.value < |users| && HoldsToken(users[r.value], v)
    ensures r.None? <==> forall j :: 0 <= j < |users| ==> !HoldsToken(users[j], v)
  {
    IndexWhere(users, (u: User) => HoldsToken(u, v))
  }

  /** Ids come from the sequence and are never reused. */
  ghost predicate IdsIssued(s: Store) {
    && (forall i :: 0 <= i < |s.users| ==> s.users[i].id < s.nextId)
    && (forall i, j :: 0 <= i < j < |s.users| ==> s.users[i].id != s.users[j].id)
  }

  /** Usernames and emails are unique ignoring case, as registration checks. */
  ghost predicate UniqueIdentities(s: Store) {
    && (forall i, j :: 0 <= i < j < |s.users| ==> !EqualsIgnoreCase(s.users[i].username, s.users[j].username))
    && (forall i, j :: 0 <= i < j < |s.users| ==> !EqualsIgnoreCase(s.users[i].email, s.users[j].email))
  }

  /** Every verification token has exactly one owner and appears once in
      that owner's list. */
  ghost predicate TokensOwnedOnce(s: Store) {
    && (forall i, j, v :: 0 <= i < j < |s.users| && HoldsToken(s.users[i], v) ==> !HoldsToken(s.users[j], v))
    && (forall i :: 0 <= i < |s.users| ==> DistinctTokenValues(s.users[i].tokens))
  }

  ghost predicate WellFormed(s: Store) {
    IdsIssued(s) && UniqueIdentities(s) && TokensOwnedOnce(s)
  }

  /** No stored user holds a token with value `v`. */
  ghost predicate FreshToken(s: Store, v: string) {
    forall i :: 0 <= i < |s.users| ==> !HoldsToken(s.users[i], v)
  }

  /** Case-insensitive uniqueness is stronger than the `unique = true`
      column constraints on username and email. */
  lemma UniqueIdentitiesGiveColumnUniqueness(s: Store)
    requires UniqueIdentities(s)
    ensures forall i, j :: 0 <= i < j < |s.users| ==> s.users[i].username != s.users[j].username
    ensures forall i, j :: 0 <= i < j < |s.users| ==> s.users[i].email != s.users[j].email
  {
  }

  /** A user's token list is exactly the set of tokens whose back-reference
      (the owner found through the token table) is that user. */
  lemma TokenOwnership(s: Store)
    requires TokensOwnedOnce(s)
    ensures forall i, v :: 0 <= i < |s.users| ==> (HoldsToken(s.users[i], v) <==> FindByToken(s.users, v) == Some(i))
  {
  }

  /** Physical removal of the user at position `i`. The user record owns its
      addresses and verification tokens, so they go with it (cascade); every
      other user is kept, in order and unchanged. */
  function DeleteCascade(s: Store, i: nat): (r: Store)
    requires i < |s.users|
    ensures |r.users| == |s.users| - 1
    ensures forall j :: 0 <= j < |r.users| ==> r.users[j] == s.users[Skip(j, i)]
    ensures r.outbox == s.outbox && r.nextId == s.nextId
  {
    s.(users := s.users[..i] + s.users[i + 1..])
  }

  /** Position in the old sequence of the `j`th user left after deleting
      position `i`. */
  function Skip(j: nat, i: nat): (k: nat)
    ensures k != i && (k < i <==> j < i)
  {
    if j < i then j else j + 1
  }

  /** After the cascade no stored user owns any of the removed user's
      tokens, so none of them can be found through the token table, and the
      removed id no longer resolves. */
  lemma DeleteCascadeRemovesOwnedTokens(s: Store, i: nat)
    requires WellFormed(s) && i < |s.users|
    ensures forall v :: HoldsToken(s.users[i], v) ==> FindByToken(DeleteCascade(s, i).users, v).None?
    ensures FindById(DeleteCascade(s, i).users, s.users[i].id).None?
  {
  }

  /** Deleting a user keeps the store well formed. */
  lemma DeleteCascadePreservesWellFormed(s: Store, i: nat)
    requires WellFormed(s) && i < |s.users|
    ensures WellFormed(DeleteCascade(s, i))
  {
    var r := DeleteCascade(s, i);
    forall a, b | 0 <= a < b < |r.users|
      ensures r.users[a].id != r.users[b].id
      ensures !EqualsIgnoreCase(r.users[a].username, r.users[b].username)
      ensures !EqualsIgnoreCase(r.users[a].email, r.users[b].email)
    {
      assert r.users[a] == s.users[Skip(a, i)] && r.users[b] == s.users[Skip(b, i)];
    }
    forall a, b, v | 0 <= a < b < |r.users| && HoldsToken(r.users[a], v)
      ensures !HoldsToken(r.users[b], v)
    {
      assert r.users[a] == s.users[Skip(a, i)] && r.users[b] == s.users[Skip(b, i)];
    }
  }
}
